=== FILE: README.md ===
# CampusBuzz core, modelled in Dafny

CampusBuzz is a React Native app for campus events. Organizers post
technical or cultural events. Participants browse them and register. A
hosted backend holds the `profiles`, `events` and `registrations` tables,
the auth service and the poster storage. This project models the app's own
decisions over that backend:

- the login, sign-up, session-restore, role-choice and logout routing;
- the create/edit event form with its poster-upload decision;
- event delete, and the edit and add navigation;
- the organizer and participant event lists;
- registering, the Register/Unregister toggle and unregistering;
- the per-year pie chart on the organizer's registrations screen.

The backend becomes an in-memory `Store` (`profiles: map<Id, Profile>`,
`events: seq<Event>`, `registrations: seq<Registration>`). Each backend
reply the code reacts to is an explicit input: the sign-in and sign-up
result, the session, the profile lookup (with its `PGRST116` "no rows"
code), the upload result, whether a write was accepted, and whether a query
failed. New row ids and `created_at` stamps are inputs too. JavaScript's
`parseInt` is modelled concretely (`JsParseInt`).

Files, one module each:

- `basics.dfy`: `Option`, the write reply, JS truthiness.
- `parse_int.dfy`: `parseInt` and `String(n)`.
- `schema.dfy`: the tables, the screens and the handler outcomes.
- `session.dfy`: AuthScreen, RoleGate and SettingsScreen.
- `events.dfy`: OrgCreateEvent and OrgEventDetail.
- `queries.dfy`: OrgEventList and ParEventList.
- `registrations.dfy`: ParRegisterScreen and ParEventDetail.
- `tally.dfy`: OrgViewRegistrations.

A handler ends in one of four ways:

- `Rejected`: its own form check failed, and nothing was sent to the backend.
- `Failed`: the backend raised an error, and the user saw an alert.
- `Moved(screen)`: it finished by navigating.
- `Done`: it finished in place.

"Nothing was sent to the backend" is proved as independence. The result is
the same whatever the backend would have replied.

## Behaviour as written

Where the app's evident intent and its code differ, the model follows
the code:

- Registering does not check for an existing registration. A second
  accepted submit adds a second row for the same pair
  (`Registrations.SecondSubmitDuplicatesPair`).
- The detail screen reads the pair with `.maybeSingle()`. That call returns
  no row when several match. So the flag means "exactly one row", and
  duplicates make the screen offer Register again.
- Creating an event does not check that the date is not in the past. Only
  the date picker's minimum date stands in the way, and the model does not
  include the picker.
- Deleting an event leaves its registrations in place, pointing at a
  missing event (`EventForms.DeleteOrphansRegistrations`).
- Login and session restore route a profile with an unknown or `null` role
  differently. Login sends it to the participant home. Restore sends it to
  the role choice (`SessionRouting.LoginAndRestoreDisagreeOnlyOnUnknownRole`).
- Logout ignores the sign-out result. If the sign-out failed and the
  session survived, the login screen's restore check routes straight back
  in (`SessionRouting.LogoutLandsOnLogin`).

## Model

| member | source | states |
|---|---|---|
| JsParseInt.ParseIntNeedsADigit | screens/RoleGate.js:41 | text without a decimal digit reads as `NaN` (`None`), which is stored as `null` |
| JsParseInt.ParseIntOfIntToString | screens/OrgViewRegistrations.js:49 | reading back the string form of any stored integer year gives that integer |
| JsParseInt.ParseInt | screens/RoleGate.js:41 | a number is read only from text that holds a decimal digit; anything else is `NaN` |
| JsParseInt.ParseIntReadsLeadingDigits | screens/ParRegisterScreen.js:60 | leading white space, an optional sign and a run of decimal digits read as the run's signed value whatever follows, so "2", " 2" and "2nd" read as 2; only a lone 0 followed by x starts a hexadecimal number instead |
| YearTally.ParsedYearIsStoredYear | screens/OrgViewRegistrations.js:49 | `parseInt(reg.year)` of a stored integer is that integer, and of `null` is `NaN` |
| YearTally.Counts | screens/OrgViewRegistrations.js:47-51 | after the loop, cell k-1 holds the number of registrations whose year is exactly k, for k = 1..4 |
| YearTally.KeepNonZero | screens/OrgViewRegistrations.js:58 | the filter keeps exactly the slices with a positive count; on slices whose years strictly increase the kept ones still strictly increase, which fixes their order |
| YearTally.KeepNonZeroMultiplicity | screens/OrgViewRegistrations.js:58 | each slice with a positive count is kept exactly as often as it occurs, and every other slice is dropped |
| YearTally.Tally | screens/OrgViewRegistrations.js:53-58 | every slice is one of the four fixed label/colour slices, with count > 0 and equal to that year's registrations; the years strictly increase; year k has a slice iff someone registered with year k |
| YearTally.TallyTotal | screens/OrgViewRegistrations.js:47-50 | the chart counts at most every registration, and counts all of them iff every year is in 1..4 |
| YearTally.StrayYearIgnored | screens/OrgViewRegistrations.js:49-50 | a registration with a missing or out-of-range year leaves the chart unchanged |
| YearTally.TallyOfNothing | screens/OrgViewRegistrations.js:44-58 | no registrations give an empty chart |
| YearTally.OnRegistrationsFetched | screens/OrgViewRegistrations.js:42-65 | on error the list and chart are kept; a `null` or empty result gives an empty list and chart; otherwise the list is the rows and the chart is exactly their tally; loading ends false |
| YearTally.RegisteredYearIsTallied | screens/ParRegisterScreen.js:56-64 | a registration for an event whose year text reads as k in 1..4 adds one to year k's count among that event's rows, and year k's slice is then on that event's chart |
| SessionRouting.LookupRole | screens/AuthScreen.js:36-40 | with a healthy backend the lookup finds a row exactly when the user has a profile, carrying that profile's role, and otherwise reports the no-rows code, never a hard error |
| SessionRouting.LoginRoute | screens/AuthScreen.js:42-50 | a lookup error other than PGRST116 aborts; otherwise no profile goes to RoleGate, role "organizer" to OrgHome, any other role to ParHome |
| SessionRouting.HandleAuth | screens/AuthScreen.js:19-60 | an empty email or password is refused; a sign-in error or a null or empty user id fails; login routes by the profile; a successful sign-up always goes to RoleGate |
| SessionRouting.AuthValidationIsLocal | screens/AuthScreen.js:20-23 | with an empty field the result does not depend on any auth or profile reply, so nothing was asked |
| SessionRouting.RestoreRoute | screens/AuthScreen.js:63-82 | with no session it stays; otherwise "organizer" goes to OrgHome, "participant" to ParHome, and anything else to RoleGate, including a failed lookup |
| SessionRouting.LoginAndRestoreDisagreeOnlyOnUnknownRole | screens/AuthScreen.js:44-80 | on a healthy lookup, login and restore pick the same screen, except for an unknown or null role (ParHome versus RoleGate) |
| SessionRouting.SaveProfile | screens/RoleGate.js:21-58 | the form is refused exactly when a field is empty, and every other stop is a failure; a missing session or a refused write fails with profiles unchanged; otherwise only the user's profile is upserted, other ids are unchanged, and the user is sent to OrgHome iff the role is "organizer" |
| SessionRouting.SavedRoleRoutesAlike | screens/RoleGate.js:38-52 | after saving role organizer or participant, the next login and the next session restore land where the role form sent the user |
| SessionRouting.YearIsNotRangeChecked | screens/RoleGate.js:22-41 | the year is not range-checked: "9" is saved as 9, and text without digits is saved as null |
| SessionRouting.Logout | screens/SettingsScreen.js:15-18 | the stack becomes just Auth whatever happens; the session is gone only if the sign-out went through |
| SessionRouting.LogoutLandsOnLogin | screens/SettingsScreen.js:15-18 | after logout the login screen stays put exactly when the session was cleared (or there was none) |
| EventForms.Prefill | screens/OrgCreateEvent.js:26-32 | the edit form opens on the event's own fields, with an empty poster URL read as none; the create form opens blank |
| EventForms.SubmitEvent | screens/OrgCreateEvent.js:65-166 | the form is refused exactly when a field is empty, and every other stop is a failure; no user, a failed upload or a refused write fails with the table unchanged; an edit rewrites only the form's columns of the rows with the event's id and keeps organizer, category, id and creation time; a create appends one row owned by the user in the route's category; success returns to that category's list |
| EventForms.UpdateWhereId | screens/OrgCreateEvent.js:104-115 | rows with another id are untouched; each row with the id keeps its id, organizer, category and creation time and takes the form's text and the given poster |
| EventForms.WrittenPoster | screens/OrgCreateEvent.js:79-100 | the poster written is the upload's URL exactly when the form holds a non-empty poster that is not an https URL; otherwise it is the poster the form opened with, so a create stores a poster only through an upload |
| EventForms.SubmitValidationIsLocal | screens/OrgCreateEvent.js:66-69 | with an empty field the result does not depend on the user, the upload, the write or the new id |
| EventForms.NoUploadWithoutNewPoster | screens/OrgCreateEvent.js:79-100 | when the poster is empty or already an https URL, the upload reply cannot affect the result |
| EventForms.UnchangedEditIsNoOp | screens/OrgCreateEvent.js:79-115 | saving an edit form unchanged, with no poster or an https one, uploads nothing and leaves the events table as it was |
| EventForms.DeleteWhereId | screens/OrgEventDetail.js:39-42 | the rows with the id are gone; every other row keeps its multiplicity |
| EventForms.DeleteEvent | screens/OrgEventDetail.js:21-60 | with no event, or on Cancel, nothing changes; a refused delete fails with no move; a confirmed delete removes only that id's events, leaves registrations and profiles alone and goes to the event's category list |
| EventForms.DeleteOrphansRegistrations | screens/OrgEventDetail.js:39-42 | after a delete, the event's registrations remain and refer to an id that no event has |
| EventForms.EditNav | screens/OrgEventDetail.js:63-69 | the edit action opens the form in edit mode on the event, in the event's own category, with the event's text filled in |
| EventForms.AddNav | screens/OrgEventList.js:85-88 | the add button opens the form in create mode in the list's category, blank, so saving it at once is refused |
| EventForms.FormReturnsToItsList | screens/OrgCreateEvent.js:119-159 | opened from the add button or from edit, a successful save returns to the list of the category it was opened in |
| EventQueries.InsertByAge | screens/OrgEventList.js:36 | inserting into a newest-first list keeps it newest-first and adds exactly that event |
| EventQueries.SortNewestFirst | screens/OrgEventList.js:36 | the result is a newest-first permutation of the input |
| EventQueries.WhereOwnedIn | screens/OrgEventList.js:34-35 | exactly the rows of that organizer and category, with their multiplicities |
| EventQueries.WhereCategory | screens/ParEventList.js:31 | exactly the rows of that category, with their multiplicities |
| EventQueries.OrganizerEvents | screens/OrgEventList.js:31-36 | the organizer's list is exactly their events of the category, newest first |
| EventQueries.CategoryEvents | screens/ParEventList.js:28-32 | the participant's list is exactly the category's events from every organizer, newest first |
| EventQueries.FetchOrganizerList | screens/OrgEventList.js:24-46 | a query error or a missing user keeps the previous list; otherwise the list is the organizer query; loading ends false |
| EventQueries.FetchParticipantList | screens/ParEventList.js:23-43 | a query error keeps the previous list; otherwise the list is the category query; loading ends false |
| EventQueries.OrganizerListWithinCategoryList | screens/ParEventList.js:28-32 | every event on an organizer's list is on the participants' list of the same category |
| EventQueries.CreatedEventIsListed | screens/OrgCreateEvent.js:134-146 | a newly created event appears on its organizer's list and on its category's list |
| EventQueries.DeletedEventIsNotListed | screens/OrgEventDetail.js:39-42 | after a delete, no list shows an event with that id |
| Registrations.PickerPlaceholderFails | screens/ParRegisterScreen.js:105-118 | with the branch taken from the picker, the form passes iff one of the seven real branches is picked |
| Registrations.LoadRegistrant | screens/ParRegisterScreen.js:27-45 | with a user and a profile row read without error, the form gets the profile's id and name, and the stored year's decimal text (blank when the profile has no year), which reads back as the stored year; otherwise, including a failed read, it stays blank with no participant id |
| Registrations.Register | screens/ParRegisterScreen.js:47-82 | the form is refused exactly when a field is empty, and every other stop (a refused insert or a reused id) is a failure; a refused insert fails with nothing written and no callback; success appends exactly one row with the event, participant, parsed year, branch and expectations, calls the callback if given and goes back; profiles and events never change |
| Registrations.FullNameIsNotStored | screens/ParRegisterScreen.js:48-64 | the full name's text has no effect on the result; only whether it is empty matters |
| Registrations.RegisterAddsOneRowForPair | screens/ParRegisterScreen.js:56-64 | each accepted submit adds one row for the pair, whatever rows the pair already had |
| Registrations.CheckRegistration | screens/ParEventDetail.js:24-41 | without a user the flag stays false; with one it is true iff the query succeeds and exactly one row matches the pair |
| Registrations.PressButton | screens/ParEventDetail.js:88-98 | the button unregisters iff the flag is set, and otherwise opens the register form for this event |
| Registrations.OnRegistered | screens/ParEventDetail.js:44-49 | the callback sets the flag and keeps the participant |
| Registrations.DeleteWherePair | screens/ParEventDetail.js:53-57 | no row of the pair is left; every other row keeps its multiplicity |
| Registrations.Unregister | screens/ParEventDetail.js:52-66 | a refused delete changes nothing; otherwise the flag is cleared, no row of the pair remains, all other rows are kept, and with no participant id nothing is deleted |
| Registrations.UnregisterWithoutRowIsNoOp | screens/ParEventDetail.js:52-66 | unregistering a pair with no row keeps every row and still clears the flag, without an error |
| Registrations.RegisterUnregisterRoundTrip | screens/ParEventDetail.js:33-65 | register then re-enter shows Unregister; unregister then re-enter shows Register |
| Registrations.SecondSubmitDuplicatesPair | screens/ParEventDetail.js:33-40 | two accepted submits give the pair two rows, and the detail screen then reads the pair as not registered |

## Left out

- YearTally.KeepNonZero: order preservation is stated for slices whose years strictly increase, the only input the chart gives it; for other input only membership and multiplicity are stated.
- Backend SDK, storage bucket, file-system read, base64 decode and uuid file names (screens/OrgCreateEvent.js:83-99): the upload is one reply, `Uploaded(url)` or `UploadFailed`. The SDK cannot be seen.
- Row ids and `created_at`: chosen by the backend, so they are inputs. An insert whose id is already taken is refused, as the primary key would refuse it.
- The registrations query's `event_id` filter and its join to `profiles` for names (screens/OrgViewRegistrations.js:29-40): the fetched rows are the reply. The join only feeds display.
- Weekday derivation in the date picker (screens/OrgCreateEvent.js:201-217): it depends on the JS `Date`, the locale and the time zone. The form's date and day are plain inputs.
- Image picking and its permission prompt (screens/OrgCreateEvent.js:42-62): only the resulting poster string is modelled.
- Loading and disabled flags while a request is in flight, the double-submit race, and results that arrive after leaving a screen: these are UI and concurrency concerns. Only "loading ends false" is modelled, for the list and statistics screens.
- Alert texts, styles, layout and theme (ThemeContext.js, colors.js).
- App.js navigator wiring, the update check, and the splash screen: I/O and animation.
- OrgHome.js and ParHome.js: static buttons. They only fix the `Category` enum, `Technical | Cultural`.
- Navigation-stack mechanics of `replace`, `navigate` and `goBack`: only the target screen is modelled. The one exception is logout's reset to `[Auth]`.
- The "View registrations" menu item on the organizer's detail screen: plain navigation with no logic.
- JsParseInt.ParseInt: values are exact integers, so float rounding above 2^53 is not modelled. `String(n)` is decimal, so the exponent form JS uses at 10^21 and above is not modelled either. Years never come near these sizes.
- Unregister with no participant id: SQL `participant_id = NULL` matches no row, so the model deletes nothing. The SDK's exact encoding of `null` in a filter is not modelled.

=== FILE: basics.dfy ===
/**
 * Vocabulary shared by every screen of the model: nullable values, the
 * backend's verdict on a write, and the JavaScript truthiness tests the
 * screens apply to their form fields.
 */
module Basics {

  /** A value the backend or a screen may leave `null`. */
  datatype Option<T> = None | Some(value: T)

  /** What the backend answers to an insert, update, upsert or delete. */
  datatype WriteReply = Accepted | Refused

  /** Row and user identifiers are opaque strings issued by the backend. */
  type Id = string

  /** JavaScript truthiness of a nullable string: `null` and `""` are falsy. */
  predicate Truthy(s: Option<string>)
  {
    s.Some? && s.value != ""
  }

  /** A nullable string with an empty value read as missing. */
  function OrNull(s: Option<string>): Option<string>
  {
    if Truthy(s) then s else None
  }

  /** Whether `s` begins with `prefix`. */
  predicate StartsWith(s: string, prefix: string)
  {
    |prefix| <= |s| && s[..|prefix|] == prefix
  }
}

=== FILE: events.dfy ===
/**
 * The organizer's event screens: the shared create/edit form with its
 * poster upload decision, and the detail screen's delete and edit actions.
 * The storage bucket is replaced by the upload's reply, passed in.
 */
module EventForms {
  import opened Basics
  import opened Schema

  /** The form's fields. `poster` is a local file URI or an already stored URL. */
  datatype EventForm = EventForm(
    name: string,
    club: string,
    date: string,
    day: string,
    venue: string,
    description: string,
    poster: Option<string>)

  /** The fields as the form opens: the event's own when editing, blank otherwise. */
  function Prefill(existing: Option<Event>): (f: EventForm)
    ensures existing.None? ==> f == EventForm("", "", "", "", "", "", None)
    ensures existing.Some? ==>
      var e := existing.value;
      && f.name == e.name && f.club == e.club && f.date == e.eventDate && f.day == e.dayName
      && f.venue == e.venue && f.description == e.description && f.poster == OrNull(e.posterUrl)
  {
    match existing
    case None => EventForm("", "", "", "", "", "", None)
    case Some(e) => EventForm(e.name, e.club, e.eventDate, e.dayName, e.venue, e.description, OrNull(e.posterUrl))
  }

  predicate FormFilled(f: EventForm)
  {
    f.name != "" && f.club != "" && f.date != "" && f.day != "" && f.venue != "" && f.description != ""
  }

  /** A poster is uploaded only when one is set and it is not already an https URL. */
  predicate NeedsUpload(poster: Option<string>)
  {
    Truthy(poster) && !StartsWith(poster.value, "https")
  }

  /** The storage upload: the public URL of the stored file, or a failure. */
  datatype UploadReply = Uploaded(url: string) | UploadFailed

  datatype SubmitResult = SubmitResult(outcome: Outcome, events: seq<Event>)

  /** The `poster_url` written: a fresh upload's URL, else the edited event's own (or `null`). */
  function PosterToWrite(form: EventForm, existing: Option<Event>, upload: UploadReply): Option<string>
    requires NeedsUpload(form.poster) ==> upload.Uploaded?
  {
    if NeedsUpload(form.poster) then Some(upload.url)
    else if existing.Some? then OrNull(existing.value.posterUrl)
    else None
  }

  /** The columns an edit rewrites; every other column of the row stays. */
  function Edited(e: Event, f: EventForm, posterUrl: Option<string>): Event
  {
    e.(name := f.name, club := f.club, eventDate := f.date, dayName := f.day,
       venue := f.venue, description := f.description, posterUrl := posterUrl)
  }

  /**
   * An update filtered on the row id: rows with another id are untouched;
   * a row with the id keeps its identity, owner, category and creation
   * time and takes the form's text and the given poster.
   */
  function UpdateWhereId(events: seq<Event>, id: Id, f: EventForm, posterUrl: Option<string>): (r: seq<Event>)
    ensures |r| == |events|
    ensures forall i :: 0 <= i < |events| && events[i].id != id ==> r[i] == events[i]
    ensures forall i :: 0 <= i < |events| && events[i].id == id ==>
      && r[i].id == id
      && r[i].organizerId == events[i].organizerId
      && r[i].category == events[i].category
      && r[i].createdAt == events[i].createdAt
      && r[i].name == f.name && r[i].club == f.club
      && r[i].eventDate == f.date && r[i].dayName == f.day
      && r[i].venue == f.venue && r[i].description == f.description
      && r[i].posterUrl == posterUrl
  {
    seq(|events|, i requires 0 <= i < |events| =>
      if events[i].id == id then Edited(events[i], f, posterUrl) else events[i])
  }

  /**
   * `handleCreateOrUpdate`: validate the form, find the user, upload a newly
   * picked poster, then update the edited event or insert a new one and
   * return to the category's list. The backend gives a new row `freshId`
   * and stamps it `now`; it refuses an id already in use.
   */
  function SubmitEvent(events: seq<Event>, form: EventForm, existing: Option<Event>, category: Category,
                       user: Option<Id>, upload: UploadReply, write: WriteReply, freshId: Id, now: int): (r: SubmitResult)
    ensures !FormFilled(form) ==> r == SubmitResult(Rejected, events)
    ensures r.outcome == Rejected <==> !FormFilled(form)
    ensures FormFilled(form) && !r.outcome.Moved? ==> r.outcome == Failed
    ensures FormFilled(form) && user.None? ==> r == SubmitResult(Failed, events)
    ensures NeedsUpload(form.poster) && upload.UploadFailed? && r.outcome != Rejected ==> r == SubmitResult(Failed, events)
    ensures write == Refused && r.outcome != Rejected ==> r == SubmitResult(Failed, events)
    ensures r.outcome != Moved(OrgEventList(category)) && existing.None? ==> r.events == events
    ensures r.outcome.Moved? <==>
      FormFilled(form) && user.Some? && (NeedsUpload(form.poster) ==> upload.Uploaded?) && write == Accepted
      && (existing.None? ==> !HasEventId(events, freshId))
    // an edit rewrites the form's columns of the edited row only
    ensures r.outcome.Moved? && existing.Some? ==>
      var id := existing.value.id;
      && r.outcome == Moved(OrgEventList(existing.value.category))
      && |r.events| == |events|
      && (forall i :: 0 <= i < |events| && events[i].id != id ==> r.events[i] == events[i])
      && (forall i :: 0 <= i < |events| && events[i].id == id ==>
            && r.events[i].id == id
            && r.events[i].organizerId == events[i].organizerId
            && r.events[i].category == events[i].category
            && r.events[i].createdAt == events[i].createdAt
            && r.events[i].name == form.name && r.events[i].club == form.club
            && r.events[i].eventDate == form.date && r.events[i].dayName == form.day
            && r.events[i].venue == form.venue && r.events[i].description == form.description
            && r.events[i].posterUrl == PosterToWrite(form, existing, upload))
    // a create appends exactly one row, owned by the user, in the route's category
    ensures r.outcome.Moved? && existing.None? ==>
      && r.outcome == Moved(OrgEventList(category))
      && |r.events| == |events| + 1
      && r.events[..|events|] == events
      && var e := r.events[|events|];
         && e.id == freshId && !HasEventId(events, e.id)
         && e.organizerId == user.value && e.category == category && e.createdAt == now
         && e.name == form.name && e.club == form.club && e.eventDate == form.date
         && e.dayName == form.day && e.venue == form.venue && e.description == form.description
         && e.posterUrl == PosterToWrite(form, existing, upload)
  {
    if !FormFilled(form) then SubmitResult(Rejected, events)
    else if user.None? then SubmitResult(Failed, events)
    else if NeedsUpload(form.poster) && upload.UploadFailed? then SubmitResult(Failed, events)
    else
      var posterUrl := PosterToWrite(form, existing, upload);
      match existing
      case Some(e) =>
        if write == Refused then SubmitResult(Failed, events)
        else
          assert write == Accepted;
          SubmitResult(Moved(OrgEventList(e.category)), UpdateWhereId(events, e.id, form, posterUrl))
      case None =>
        if write == Refused || HasEventId(events, freshId) then SubmitResult(Failed, events)
        else
          assert write == Accepted;
          var row := Event(freshId, user.value, category, form.name, form.club, form.date, form.day,
                           form.venue, form.description, posterUrl, now);
          assert (events + [row])[..|events|] == events;
          SubmitResult(Moved(OrgEventList(category)), events + [row])
  }

  /**
   * The poster written: the upload's URL exactly when the form holds a
   * newly picked file; otherwise the poster the form opened with when
   * editing, and none when creating, so a create stores a poster only
   * through an upload.
   */
  lemma WrittenPoster(form: EventForm, existing: Option<Event>, upload: UploadReply)
    requires NeedsUpload(form.poster) ==> upload.Uploaded?
    ensures var p := PosterToWrite(form, existing, upload);
      && (NeedsUpload(form.poster) ==> p == Some(upload.url))
      && (!NeedsUpload(form.poster) ==> p == Prefill(existing).poster)
      && (existing.None? ==> (p.Some? <==> NeedsUpload(form.poster)))
  {
  }

  /** A form with an empty field is refused before the user lookup, the upload or any write. */
  lemma SubmitValidationIsLocal(events: seq<Event>, form: EventForm, existing: Option<Event>, category: Category,
                                user: Option<Id>, upload: UploadReply, write: WriteReply, freshId: Id, now: int,
                                user': Option<Id>, upload': UploadReply, write': WriteReply, freshId': Id, now': int)
    requires !FormFilled(form)
    ensures SubmitEvent(events, form, existing, category, user, upload, write, freshId, now)
         == SubmitEvent(events, form, existing, category, user', upload', write', freshId', now')
  {
  }

  /** Without a newly picked poster the upload is never consulted. */
  lemma NoUploadWithoutNewPoster(events: seq<Event>, form: EventForm, existing: Option<Event>, category: Category,
                                 user: Option<Id>, upload: UploadReply, upload': UploadReply,
                                 write: WriteReply, freshId: Id, now: int)
    requires !NeedsUpload(form.poster)
    ensures SubmitEvent(events, form, existing, category, user, upload, write, freshId, now)
         == SubmitEvent(events, form, existing, category, user, upload', write, freshId, now)
  {
  }

  /**
   * Saving an edit form left as it opened changes nothing and uploads
   * nothing, when the stored poster is absent or already an https URL and
   * the event's row is the one the form was opened from.
   */
  lemma UnchangedEditIsNoOp(events: seq<Event>, e: Event, category: Category, user: Id,
                            upload: UploadReply, freshId: Id, now: int)
    requires e.name != "" && e.club != "" && e.eventDate != "" && e.dayName != "" && e.venue != "" && e.description != ""
    requires e.posterUrl.None? || StartsWith(e.posterUrl.value, "https")
    requires forall i :: 0 <= i < |events| && events[i].id == e.id ==> events[i] == e
    ensures !NeedsUpload(Prefill(Some(e)).poster)
    ensures SubmitEvent(events, Prefill(Some(e)), Some(e), category, Some(user), upload, Accepted, freshId, now)
         == SubmitResult(Moved(OrgEventList(e.category)), events)
  {
    var form := Prefill(Some(e));
    var r := SubmitEvent(events, form, Some(e), category, Some(user), upload, Accepted, freshId, now);
    assert OrNull(e.posterUrl) == e.posterUrl by {
      if e.posterUrl.Some? { assert e.posterUrl.value[..5] == "https"; }
    }
    assert PosterToWrite(form, Some(e), upload) == e.posterUrl;
    assert r.events == events;
  }

  /** The detail screen's delete confirmation. */
  datatype Confirm = Cancel | ConfirmDelete

  datatype DeleteResult = DeleteResult(outcome: Outcome, store: Store)

  /** Deleting every event row whose id is `id`. */
  function DeleteWhereId(events: seq<Event>, id: Id): (r: seq<Event>)
    ensures forall x: Event :: x.id == id ==> x !in r
    ensures forall x: Event :: x.id != id ==> multiset(r)[x] == multiset(events)[x]
    ensures |r| <= |events|
  {
    if |events| == 0 then []
    else
      assert events == [events[0]] + events[1..];
      if events[0].id == id then DeleteWhereId(events[1..], id)
      else
      [events[0]] + DeleteWhereId(events[1..], id)
  }

  /**
   * `handleDelete` behind its confirmation. Without an event the screen
   * shows a placeholder and offers no action. Registrations are not
   * touched: those of the deleted event are left behind.
   */
  function DeleteEvent(store: Store, event: Option<Event>, choice: Confirm, write: WriteReply): (r: DeleteResult)
    ensures r.store.registrations == store.registrations && r.store.profiles == store.profiles
    ensures event.None? || choice == Cancel ==> r == DeleteResult(Done, store)
    ensures event.Some? && choice == ConfirmDelete && write == Refused ==> r == DeleteResult(Failed, store)
    ensures r.outcome.Moved? <==> event.Some? && choice == ConfirmDelete && write == Accepted
    ensures r.outcome.Moved? ==>
      && r.outcome.to == OrgEventList(event.value.category)
      && (forall x: Event :: x.id == event.value.id ==> x !in r.store.events)
      && (forall x: Event :: x.id != event.value.id ==> multiset(r.store.events)[x] == multiset(store.events)[x])
    ensures !r.outcome.Moved? ==> r.store == store
  {
    if event.None? || choice == Cancel then DeleteResult(Done, store)
    else if write == Refused then DeleteResult(Failed, store)
    else
      assert write == Accepted && choice == ConfirmDelete;
      DeleteResult(Moved(OrgEventList(event.value.category)),
                   store.(events := DeleteWhereId(store.events, event.value.id)))
  }

  /** Deleting an event leaves its registrations pointing at an id no event has any more. */
  lemma DeleteOrphansRegistrations(store: Store, e: Event, reg: Registration)
    requires reg in store.registrations && reg.eventId == e.id
    ensures var r := DeleteEvent(store, Some(e), ConfirmDelete, Accepted);
      reg in r.store.registrations && !HasEventId(r.store.events, reg.eventId)
  {
  }

  /**
   * The detail screen's edit action opens the form in edit mode on the
   * event, in the event's own category, with the event's text filled in.
   */
  function EditNav(e: Event): (s: Screen)
    ensures s.OrgCreateEvent? && s.existing == Some(e) && s.category == e.category
    ensures var f := Prefill(s.existing);
      f.name == e.name && f.club == e.club && f.date == e.eventDate && f.day == e.dayName
      && f.venue == e.venue && f.description == e.description
  {
    OrgCreateEvent(e.category, Some(e))
  }

  /**
   * The list screen's add button opens the form in create mode in the
   * list's category; the form opens blank, so saving it at once is refused.
   */
  function AddNav(category: Category): (s: Screen)
    ensures s.OrgCreateEvent? && s.existing.None? && s.category == category
    ensures !FormFilled(Prefill(s.existing)) && Prefill(s.existing).poster.None?
  {
    OrgCreateEvent(category, None)
  }

  /** However the form was opened, a successful save returns to the list it belongs to. */
  lemma FormReturnsToItsList(events: seq<Event>, form: EventForm, entry: Screen, source: Category, e: Event,
                             user: Option<Id>, upload: UploadReply, write: WriteReply, freshId: Id, now: int)
    requires entry == AddNav(source) || entry == EditNav(e)
    ensures var r := SubmitEvent(events, form, entry.existing, entry.category, user, upload, write, freshId, now);
      r.outcome.Moved? ==> r.outcome.to == OrgEventList(entry.category)
  {
  }
}

=== FILE: parse_int.dfy ===
/**
 * JavaScript's global `parseInt(string)` with no radix argument, as the
 * profile and registration forms apply it to the typed year, and as the
 * statistics screen applies it to the year column it reads back.
 *
 * The steps follow the language's definition: skip leading white space,
 * read an optional sign, switch to base 16 after a `0x`/`0X` prefix, then
 * read the longest run of digits of the base. No digit at all is `NaN`,
 * modelled as `None`. Values are exact integers (see README, Left out).
 */
module JsParseInt {
  import opened Basics

  /** ECMAScript white space and line terminators (every Zs space included). */
  predicate IsJsSpace(c: char)
  {
    var k := c as int;
    k == 0x09 || k == 0x0A || k == 0x0B || k == 0x0C || k == 0x0D
    || k == 0x20 || k == 0xA0 || k == 0x1680 || (0x2000 <= k <= 0x200A)
    || k == 0x2028 || k == 0x2029 || k == 0x202F || k == 0x205F
    || k == 0x3000 || k == 0xFEFF
  }

  predicate IsDecimalDigit(c: char)
  {
    '0' <= c <= '9'
  }

  /** The value of `c` as a digit of base `radix` (10 or 16), if it is one. */
  function Digit(c: char, radix: nat): (d: Option<nat>)
    requires radix == 10 || radix == 16
    ensures d.Some? ==> d.value < radix
    ensures radix == 10 ==> (d.Some? <==> IsDecimalDigit(c))
    ensures IsDecimalDigit(c) ==> d == Some((c - '0') as nat)
  {
    if '0' <= c <= '9' then Some((c - '0') as nat)
    else if radix == 16 && 'a' <= c <= 'f' then Some((c - 'a') as nat + 10)
    else if radix == 16 && 'A' <= c <= 'F' then Some((c - 'A') as nat + 10)
    else None
  }

  /** `s` with its leading white space removed. */
  function TrimStart(s: string): (t: string)
    ensures |t| <= |s| && t == s[|s| - |t|..]
    ensures forall i :: 0 <= i < |s| - |t| ==> IsJsSpace(s[i])
    ensures |t| == 0 || !IsJsSpace(t[0])
  {
    if |s| > 0 && IsJsSpace(s[0]) then TrimStart(s[1..]) else s
  }

  /** Length of the longest prefix of `s` made of base-`radix` digits. */
  function DigitRun(s: string, radix: nat): (n: nat)
    requires radix == 10 || radix == 16
    ensures n <= |s|
    ensures forall i :: 0 <= i < n ==> Digit(s[i], radix).Some?
    ensures n < |s| ==> Digit(s[n], radix).None?
  {
    if |s| == 0 || Digit(s[0], radix).None? then 0
    else 1 + DigitRun(s[1..], radix)
  }

  /** Positional value of a string made only of base-`radix` digits. */
  function Value(ds: string, radix: nat): nat
    requires radix == 10 || radix == 16
    requires forall i :: 0 <= i < |ds| ==> Digit(ds[i], radix).Some?
  {
    if |ds| == 0 then 0
    else Value(ds[..|ds| - 1], radix) * radix + Digit(ds[|ds| - 1], radix).value
  }

  /** `s` after the sign, if any, has been read. */
  function Unsigned(t: string): string
  {
    if |t| > 0 && (t[0] == '-' || t[0] == '+') then t[1..] else t
  }

  predicate HasHexPrefix(u: string)
  {
    |u| >= 2 && u[0] == '0' && (u[1] == 'x' || u[1] == 'X')
  }

  /** The magnitude read after the sign: base 16 after `0x`, else base 10. */
  function ReadMagnitude(u: string): (r: Option<nat>)
    ensures r.Some? ==> |u| > 0 && IsDecimalDigit(u[0])
  {
    var radix := if HasHexPrefix(u) then 16 else 10;
    var body := if HasHexPrefix(u) then u[2..] else u;
    var n := DigitRun(body, radix);
    if n == 0 then None else Some(Value(body[..n], radix))
  }

  /** `parseInt(s)`: `None` stands for `NaN`. A number is read only from text holding a decimal digit. */
  function ParseInt(s: string): (r: Option<int>)
    ensures r.Some? ==> exists i :: 0 <= i < |s| && IsDecimalDigit(s[i])
  {
    var t := TrimStart(s);
    var k := |s| - |t| + (if |t| > 0 && (t[0] == '-' || t[0] == '+') then 1 else 0);
    assert ReadSigned(t).Some? ==> k < |s| && IsDecimalDigit(s[k]);
    ReadSigned(t)
  }

  /** The number after leading white space: an optional sign, then the magnitude. */
  function ReadSigned(t: string): (r: Option<int>)
    ensures r.Some? ==> |Unsigned(t)| > 0 && IsDecimalDigit(Unsigned(t)[0])
  {
    match ReadMagnitude(Unsigned(t))
    case None => None
    case Some(m) => if |t| > 0 && t[0] == '-' then Some(-(m as int)) else Some(m as int)
  }

  /** Text without a decimal digit, such as `"null"` or `"abc"`, reads as `NaN`. */
  lemma ParseIntNeedsADigit(s: string)
    requires forall i :: 0 <= i < |s| ==> !IsDecimalDigit(s[i])
    ensures ParseInt(s) == None
  {
  }

  function DigitChar(d: nat): (c: char)
    requires d < 10
    ensures IsDecimalDigit(c) && Digit(c, 10) == Some(d)
  {
    ('0' as int + d) as char
  }

  /** Decimal digits of `n`, as `String(n)` writes a non-negative integer. */
  function DecimalDigits(n: nat): (s: string)
    ensures |s| >= 1
    ensures forall i :: 0 <= i < |s| ==> IsDecimalDigit(s[i])
  {
    if n < 10 then [DigitChar(n)] else DecimalDigits(n / 10) + [DigitChar(n % 10)]
  }

  /** `String(n)` for an integer-valued number. */
  function IntToString(n: int): string
  {
    if n < 0 then "-" + DecimalDigits(-n) else DecimalDigits(n)
  }

  lemma {:induction false} ValueOfDecimalDigits(n: nat)
    ensures Value(DecimalDigits(n), 10) == n
  {
    var s := DecimalDigits(n);
    if n >= 10 {
      ValueOfDecimalDigits(n / 10);
      assert s[..|s| - 1] == DecimalDigits(n / 10);
    }
  }

  /**
   * A non-empty run of decimal digits followed by a non-digit reads as the
   * run's value, unless the run is a lone `0` that the next character
   * turns into a `0x` prefix.
   */
  lemma ReadMagnitudeOfRun(ds: string, rest: string)
    requires |ds| > 0 && forall i :: 0 <= i < |ds| ==> IsDecimalDigit(ds[i])
    requires |rest| > 0 ==> !IsDecimalDigit(rest[0])
    requires !(ds == "0" && |rest| > 0 && (rest[0] == 'x' || rest[0] == 'X'))
    ensures ReadMagnitude(ds + rest) == Some(Value(ds, 10))
  {
    var s := ds + rest;
    assert !HasHexPrefix(s) by {
      if |s| >= 2 && s[0] == '0' {
        if |ds| >= 2 {
          assert s[1] == ds[1];
        } else {
          assert ds[0] == '0' && ds == "0";
          assert s[1] == rest[0];
        }
      }
    }
    DigitRunSplit(ds, rest);
    assert s[..|ds|] == ds;
  }

  /** Leading white space is skipped up to the first other character. */
  lemma {:induction false} TrimStartSkipsSpace(ws: string, t: string)
    requires forall i :: 0 <= i < |ws| ==> IsJsSpace(ws[i])
    requires |t| == 0 || !IsJsSpace(t[0])
    ensures TrimStart(ws + t) == t
  {
    if |ws| == 0 {
      assert ws + t == t;
    } else {
      assert (ws + t)[0] == ws[0];
      assert (ws + t)[1..] == ws[1..] + t;
      TrimStartSkipsSpace(ws[1..], t);
    }
  }

  /** Reading back what `String(n)` wrote gives `n` again. */
  lemma ParseIntOfIntToString(n: int)
    ensures ParseInt(IntToString(n)) == Some(n)
  {
    var m := if n < 0 then -n else n;
    var ds := DecimalDigits(m);
    var s := IntToString(n);
    assert !IsJsSpace(s[0]);
    assert TrimStart(s) == s;
    assert Unsigned(s) == ds;
    assert ds + "" == ds;
    ReadMagnitudeOfRun(ds, "");
    ValueOfDecimalDigits(m);
  }

  /**
   * White space, an optional sign and a run of decimal digits read as the
   * run's signed value, whatever follows the first non-digit: `" 2nd"`
   * reads as 2 and `"-07x"` as -7. Only a lone `0` followed by `x` or `X`
   * is excluded, since that starts a hexadecimal number.
   */
  lemma ParseIntReadsLeadingDigits(ws: string, sign: string, ds: string, rest: string)
    requires forall i :: 0 <= i < |ws| ==> IsJsSpace(ws[i])
    requires sign == "" || sign == "+" || sign == "-"
    requires |ds| > 0 && forall i :: 0 <= i < |ds| ==> IsDecimalDigit(ds[i])
    requires |rest| > 0 ==> !IsDecimalDigit(rest[0])
    requires !(ds == "0" && |rest| > 0 && (rest[0] == 'x' || rest[0] == 'X'))
    ensures ParseInt(ws + (sign + ds + rest)) == Some(if sign == "-" then -(Value(ds, 10) as int) else Value(ds, 10))
  {
    var t := sign + ds + rest;
    ReadSignedOfRun(sign, ds, rest);
    TrimStartSkipsSpace(ws, t);
    ParseIntAfterSpace(ws + t, t);
  }

  lemma ParseIntAfterSpace(s: string, t: string)
    requires TrimStart(s) == t
    ensures ParseInt(s) == ReadSigned(t)
  {
  }

  /** The sign step of `ParseIntReadsLeadingDigits`. */
  lemma ReadSignedOfRun(sign: string, ds: string, rest: string)
    requires sign == "" || sign == "+" || sign == "-"
    requires |ds| > 0 && forall i :: 0 <= i < |ds| ==> IsDecimalDigit(ds[i])
    requires |rest| > 0 ==> !IsDecimalDigit(rest[0])
    requires !(ds == "0" && |rest| > 0 && (rest[0] == 'x' || rest[0] == 'X'))
    ensures var t := sign + ds + rest;
      && (|t| == 0 || !IsJsSpace(t[0]))
      && ReadSigned(t) == Some(if sign == "-" then -(Value(ds, 10) as int) else Value(ds, 10))
  {
    var t, u, m := sign + ds + rest, ds + rest, Value(ds, 10);
    SignBeforeRun(sign, ds, rest);
    ReadMagnitudeOfRun(ds, rest);
    ReadSignedOfMagnitude(t, u, m);
    assert |t| > 0 && (t[0] == '-' <==> sign == "-");
  }

  lemma SignBeforeRun(sign: string, ds: string, rest: string)
    requires sign == "" || sign == "+" || sign == "-"
    requires |ds| > 0 && forall i :: 0 <= i < |ds| ==> IsDecimalDigit(ds[i])
    ensures var t := sign + ds + rest;
      Unsigned(t) == ds + rest && !IsJsSpace(t[0]) && (t[0] == '-' <==> sign == "-")
  {
    var t := sign + ds + rest;
    if sign == "" {
      assert t == ds + rest && t[0] == ds[0];
    } else {
      assert t[0] == sign[0] && t[1..] == ds + rest;
    }
  }

  lemma ReadSignedOfMagnitude(t: string, u: string, m: nat)
    requires Unsigned(t) == u && ReadMagnitude(u) == Some(m)
    ensures ReadSigned(t) == Some(if |t| > 0 && t[0] == '-' then -(m as int) else m)
  {
  }

  lemma {:induction false} DigitRunSplit(ds: string, rest: string)
    requires forall i :: 0 <= i < |ds| ==> IsDecimalDigit(ds[i])
    requires |rest| > 0 ==> !IsDecimalDigit(rest[0])
    ensures DigitRun(ds + rest, 10) == |ds|
  {
    if |ds| > 0 {
      assert (ds + rest)[1..] == ds[1..] + rest;
      DigitRunSplit(ds[1..], rest);
    } else {
      assert ds + rest == rest;
    }
  }
}

=== FILE: queries.dfy ===
/**
 * The two event lists: an organizer's own events of one category, and
 * every organizer's events of one category for participants, both newest
 * first. The backend's `ORDER BY created_at DESC` leaves ties unordered, so
 * the model promises a newest-first arrangement of exactly the matching
 * rows and nothing about the order of ties.
 */
module EventQueries {
  import opened Basics
  import opened Schema
  import opened EventForms

  predicate NewestFirst(es: seq<Event>)
  {
    forall i, j :: 0 <= i < j < |es| ==> es[i].createdAt >= es[j].createdAt
  }

  /** `e` placed into a newest-first list. */
  function InsertByAge(e: Event, es: seq<Event>): (r: seq<Event>)
    requires NewestFirst(es)
    ensures NewestFirst(r)
    ensures forall x :: x in r ==> x == e || x in es
    ensures multiset(r) == multiset(es) + multiset{e}
  {
    if |es| == 0 then [e]
    else if es[0].createdAt <= e.createdAt then [e] + es
    else
      var rest := InsertByAge(e, es[1..]);
      assert es == [es[0]] + es[1..];
      HeadBoundsRest(e, es, rest);
      ConsNewestFirst(es[0], rest);
      [es[0]] + rest
  }

  /** The head of a newest-first list is no older than anything inserted behind it. */
  lemma HeadBoundsRest(e: Event, es: seq<Event>, rest: seq<Event>)
    requires NewestFirst(es) && |es| > 0 && es[0].createdAt > e.createdAt
    requires forall x :: x in rest ==> x == e || x in es[1..]
    ensures forall x :: x in rest ==> es[0].createdAt >= x.createdAt
  {
    forall x | x in rest ensures es[0].createdAt >= x.createdAt {
      if x != e {
        var j :| 0 <= j < |es[1..]| && es[1..][j] == x;
        assert es[j + 1] == x;
      }
    }
  }

  /** A newest-first list stays newest-first under a head no older than any of it. */
  lemma ConsNewestFirst(h: Event, rest: seq<Event>)
    requires NewestFirst(rest)
    requires forall x :: x in rest ==> h.createdAt >= x.createdAt
    ensures NewestFirst([h] + rest)
  {
    var r := [h] + rest;
    assert forall j :: 0 < j < |r| ==> r[j] == rest[j - 1];
  }

  /** The rows ordered by creation time, latest first. */
  function SortNewestFirst(es: seq<Event>): (r: seq<Event>)
    ensures NewestFirst(r)
    ensures multiset(r) == multiset(es)
  {
    if |es| == 0 then []
    else
      assert es == [es[0]] + es[1..];
      InsertByAge(es[0], SortNewestFirst(es[1..]))
  }

  /** The rows an organizer's list shows. */
  predicate OwnedIn(e: Event, organizer: Id, category: Category)
  {
    e.organizerId == organizer && e.category == category
  }

  /** The rows the given organizer created in the given category. */
  function WhereOwnedIn(es: seq<Event>, organizer: Id, category: Category): (r: seq<Event>)
    ensures forall x :: multiset(r)[x] == if OwnedIn(x, organizer, category) then multiset(es)[x] else 0
  {
    if |es| == 0 then []
    else
      assert es == [es[0]] + es[1..];
      var rest := WhereOwnedIn(es[1..], organizer, category);
      if OwnedIn(es[0], organizer, category) then [es[0]] + rest else rest
  }

  /** The rows of the given category, whoever created them. */
  function WhereCategory(es: seq<Event>, category: Category): (r: seq<Event>)
    ensures forall x :: multiset(r)[x] == if x.category == category then multiset(es)[x] else 0
  {
    if |es| == 0 then []
    else
      assert es == [es[0]] + es[1..];
      var rest := WhereCategory(es[1..], category);
      if es[0].category == category then [es[0]] + rest else rest
  }

  /** The organizer list's query: exactly their events of the category, newest first. */
  function OrganizerEvents(events: seq<Event>, organizer: Id, category: Category): (r: seq<Event>)
    ensures NewestFirst(r)
    ensures forall x :: multiset(r)[x] == if OwnedIn(x, organizer, category) then multiset(events)[x] else 0
  {
    SortNewestFirst(WhereOwnedIn(events, organizer, category))
  }

  /** The participant list's query: every organizer's events of the category, newest first. */
  function CategoryEvents(events: seq<Event>, category: Category): (r: seq<Event>)
    ensures NewestFirst(r)
    ensures forall x :: multiset(r)[x] == if x.category == category then multiset(events)[x] else 0
  {
    SortNewestFirst(WhereCategory(events, category))
  }

  /** A list screen's state. */
  datatype ListView = ListView(events: seq<Event>, loading: bool)

  /**
   * `fetchEvents` on the organizer's list. Without a signed-in user the
   * handler fails before querying, so like a query error it keeps the
   * previous list.
   */
  function FetchOrganizerList(view: ListView, events: seq<Event>, user: Option<Id>,
                              category: Category, reply: QueryReply): (next: ListView)
    ensures !next.loading
    ensures user.None? || reply == QueryFailed ==> next.events == view.events
    ensures user.Some? && reply == QueryOk ==>
      && NewestFirst(next.events)
      && forall x :: multiset(next.events)[x] ==
           if OwnedIn(x, user.value, category) then multiset(events)[x] else 0
  {
    if user.None? || reply == QueryFailed then view.(loading := false)
    else ListView(OrganizerEvents(events, user.value, category), false)
  }

  /** `fetchEvents` on the participant's list. */
  function FetchParticipantList(view: ListView, events: seq<Event>, category: Category,
                                reply: QueryReply): (next: ListView)
    ensures !next.loading
    ensures reply == QueryFailed ==> next.events == view.events
    ensures reply == QueryOk ==>
      && NewestFirst(next.events)
      && forall x :: multiset(next.events)[x] == if x.category == category then multiset(events)[x] else 0
  {
    if reply == QueryFailed then view.(loading := false)
    else ListView(CategoryEvents(events, category), false)
  }

  /** Everything on an organizer's list is also on the participants' list of that category. */
  lemma OrganizerListWithinCategoryList(events: seq<Event>, organizer: Id, category: Category)
    ensures forall x :: x in OrganizerEvents(events, organizer, category) ==> x in CategoryEvents(events, category)
  {
    forall x | x in OrganizerEvents(events, organizer, category)
      ensures x in CategoryEvents(events, category)
    {
      assert multiset(OrganizerEvents(events, organizer, category))[x] > 0;
      assert multiset(CategoryEvents(events, category))[x] > 0;
    }
  }

  /** A newly created event shows up on its organizer's list and on its category's list. */
  lemma CreatedEventIsListed(events: seq<Event>, form: EventForm, category: Category, user: Id,
                             upload: UploadReply, freshId: Id, now: int)
    ensures var r := SubmitEvent(events, form, None, category, Some(user), upload, Accepted, freshId, now);
      r.outcome.Moved? ==>
        && r.events[|events|] in OrganizerEvents(r.events, user, category)
        && r.events[|events|] in CategoryEvents(r.events, category)
  {
    var r := SubmitEvent(events, form, None, category, Some(user), upload, Accepted, freshId, now);
    if r.outcome.Moved? {
      var e := r.events[|events|];
      assert e in r.events;
      assert multiset(OrganizerEvents(r.events, user, category))[e] > 0;
      assert multiset(CategoryEvents(r.events, category))[e] > 0;
    }
  }

  /** A deleted event is on no list afterwards. */
  lemma DeletedEventIsNotListed(store: Store, e: Event, organizer: Id, category: Category)
    ensures var r := DeleteEvent(store, Some(e), ConfirmDelete, Accepted);
      && (forall x :: x in OrganizerEvents(r.store.events, organizer, category) ==> x.id != e.id)
      && (forall x :: x in CategoryEvents(r.store.events, category) ==> x.id != e.id)
  {
    var r := DeleteEvent(store, Some(e), ConfirmDelete, Accepted);
    NoIdNotListed(r.store.events, e.id, organizer, category);
  }

  lemma NoIdNotListed(events: seq<Event>, id: Id, organizer: Id, category: Category)
    requires forall x: Event :: x.id == id ==> x !in events
    ensures forall x :: x in OrganizerEvents(events, organizer, category) ==> x.id != id
    ensures forall x :: x in CategoryEvents(events, category) ==> x.id != id
  {
    forall x | x in OrganizerEvents(events, organizer, category)
      ensures x.id != id
    {
      assert multiset(OrganizerEvents(events, organizer, category))[x] > 0;
      assert x in events;
    }
    forall x | x in CategoryEvents(events, category)
      ensures x.id != id
    {
      assert multiset(CategoryEvents(events, category))[x] > 0;
      assert x in events;
    }
  }
}

=== FILE: registrations.dfy ===
/**
 * The participant's side of a registration: the registration form and the
 * event detail screen whose button toggles between Register and
 * Unregister. The flag behind the button is read from the registrations
 * table on entry and flipped locally afterwards.
 */
module Registrations {
  import opened Basics
  import opened Schema
  import opened JsParseInt

  /** The branch picker's items, its `""` placeholder first. */
  const BranchChoices: seq<string> := ["", "CSE", "ECE", "ISE", "AIML", "AIDS", "CSML", "CSDS"]

  /** The branches a participant can actually pick. */
  const Branches: seq<string> := ["CSE", "ECE", "ISE", "AIML", "AIDS", "CSML", "CSDS"]

  datatype RegisterForm = RegisterForm(fullName: string, year: string, branch: string, expectations: string)

  predicate RegisterFormFilled(f: RegisterForm)
  {
    f.fullName != "" && f.year != "" && f.branch != ""
  }

  /** With the branch taken from the picker, the form passes exactly when a real branch was picked. */
  lemma PickerPlaceholderFails(f: RegisterForm)
    requires f.branch in BranchChoices
    ensures RegisterFormFilled(f) <==> f.fullName != "" && f.year != "" && f.branch in Branches
  {
    assert BranchChoices == [""] + Branches;
  }

  /**
   * `fetchProfile` when the form opens: the participant id and the name and
   * year fields come from the user's profile, when there is a user and the
   * profile read returns its row; the year field shows the stored year's
   * decimal text, or stays blank when the profile has no year. A failed
   * read is ignored like a missing row: the form stays blank and no
   * participant id is set.
   */
  function LoadRegistrant(profiles: map<Id, Profile>, user: Option<Id>, read: QueryReply): (r: (Option<Id>, RegisterForm))
    ensures user.None? || read == QueryFailed || user.value !in profiles ==> r == (None, RegisterForm("", "", "", ""))
    ensures user.Some? && read == QueryOk && user.value in profiles ==>
      && r.0 == user
      && r.1.fullName == profiles[user.value].fullName
      && r.1.branch == "" && r.1.expectations == ""
      && ParseInt(r.1.year) == profiles[user.value].year
      && r.1.year == (if profiles[user.value].year.Some? then IntToString(profiles[user.value].year.value) else "")
  {
    if user.None? || read == QueryFailed || user.value !in profiles then (None, RegisterForm("", "", "", ""))
    else
      var p := profiles[user.value];
      var year := if p.year.Some? then IntToString(p.year.value) else "";
      ParseIntOfIntToString(if p.year.Some? then p.year.value else 0);
      assert p.year.None? ==> ParseInt(year) == None;
      (user, RegisterForm(p.fullName, year, "", ""))
  }

  /** A row of the given event whose participant is `pid`. */
  predicate Matches(r: Registration, eventId: Id, pid: Id)
  {
    r.eventId == eventId && r.participantId == Some(pid)
  }

  /** How many rows the pair `(eventId, pid)` has. */
  function PairCount(regs: seq<Registration>, eventId: Id, pid: Id): nat
  {
    if |regs| == 0 then 0
    else PairCount(regs[..|regs| - 1], eventId, pid) + (if Matches(regs[|regs| - 1], eventId, pid) then 1 else 0)
  }

  lemma {:induction false} PairCountNone(regs: seq<Registration>, eventId: Id, pid: Id)
    requires forall i :: 0 <= i < |regs| ==> !Matches(regs[i], eventId, pid)
    ensures PairCount(regs, eventId, pid) == 0
  {
    if |regs| > 0 {
      PairCountNone(regs[..|regs| - 1], eventId, pid);
    }
  }

  datatype RegisterResult = RegisterResult(outcome: Outcome, store: Store, notified: bool)

  /** The row `handleRegister` inserts. The full name is checked but not stored. */
  function RowOf(freshId: Id, event: Event, participant: Option<Id>, form: RegisterForm): Registration
  {
    Registration(freshId, event.id, participant, ParseInt(form.year), form.branch, form.expectations)
  }

  /**
   * `handleRegister`: validate, insert one row without looking for an
   * existing one, then (on the alert's OK) call `onRegistered` if it was
   * passed and go back. The backend gives the row `freshId` and refuses an
   * id already in use.
   */
  function Register(store: Store, form: RegisterForm, event: Event, participant: Option<Id>,
                    hasCallback: bool, write: WriteReply, freshId: Id): (r: RegisterResult)
    ensures r.store.profiles == store.profiles && r.store.events == store.events
    ensures !RegisterFormFilled(form) ==> r == RegisterResult(Rejected, store, false)
    ensures r.outcome == Rejected <==> !RegisterFormFilled(form)
    ensures RegisterFormFilled(form) && !r.outcome.Moved? ==> r.outcome == Failed
    ensures write == Refused && r.outcome != Rejected ==> r == RegisterResult(Failed, store, false)
    ensures r.outcome.Moved? <==>
      RegisterFormFilled(form) && write == Accepted && !HasRegistrationId(store.registrations, freshId)
    ensures !r.outcome.Moved? ==> r.store == store && !r.notified
    ensures r.outcome.Moved? ==>
      var regs := store.registrations;
      && r.outcome.to == Back
      && r.notified == hasCallback
      && |r.store.registrations| == |regs| + 1
      && r.store.registrations[..|regs|] == regs
      && var row := r.store.registrations[|regs|];
         && row.id == freshId && !HasRegistrationId(regs, row.id)
         && row.eventId == event.id && row.participantId == participant
         && row.year == ParseInt(form.year) && row.branch == form.branch
         && row.expectations == form.expectations
  {
    if !RegisterFormFilled(form) then RegisterResult(Rejected, store, false)
    else if write == Refused || HasRegistrationId(store.registrations, freshId) then RegisterResult(Failed, store, false)
    else
      assert write == Accepted;
      var regs := store.registrations + [RowOf(freshId, event, participant, form)];
      assert regs[..|store.registrations|] == store.registrations;
      RegisterResult(Moved(Back), store.(registrations := regs), hasCallback)
  }

  /** Only whether the full name is empty matters; its text is not written anywhere. */
  lemma FullNameIsNotStored(store: Store, form: RegisterForm, name: string, event: Event, participant: Option<Id>,
                            hasCallback: bool, write: WriteReply, freshId: Id)
    requires form.fullName != "" && name != ""
    ensures Register(store, form, event, participant, hasCallback, write, freshId)
         == Register(store, form.(fullName := name), event, participant, hasCallback, write, freshId)
  {
  }

  /** Each accepted submit adds a row for the pair, whether or not it already had one. */
  lemma RegisterAddsOneRowForPair(store: Store, form: RegisterForm, event: Event, pid: Id,
                                  hasCallback: bool, freshId: Id)
    requires RegisterFormFilled(form) && !HasRegistrationId(store.registrations, freshId)
    ensures var r := Register(store, form, event, Some(pid), hasCallback, Accepted, freshId);
      PairCount(r.store.registrations, event.id, pid) == PairCount(store.registrations, event.id, pid) + 1
  {
    var r := Register(store, form, event, Some(pid), hasCallback, Accepted, freshId);
    var regs := r.store.registrations;
    assert regs[..|regs| - 1] == store.registrations;
  }

  /** The detail screen's state: whose flag it is and the flag itself. */
  datatype DetailView = DetailView(participant: Option<Id>, registered: bool)

  /**
   * `checkRegistration` on entry. `.maybeSingle()` returns the row only when
   * exactly one matches; none, several, or a query error all give `null`.
   */
  function CheckRegistration(regs: seq<Registration>, event: Event, user: Option<Id>, reply: QueryReply): (v: DetailView)
    ensures v.participant == user
    ensures user.None? ==> !v.registered
    ensures user.Some? ==>
      (v.registered <==> reply == QueryOk && PairCount(regs, event.id, user.value) == 1)
  {
    match user
    case None => DetailView(None, false)
    case Some(u) => DetailView(user, reply == QueryOk && PairCount(regs, event.id, u) == 1)
  }

  /** What the detail screen's button does. */
  datatype ButtonAction = RunUnregister | Navigate(to: Screen)

  function PressButton(view: DetailView, event: Event): (a: ButtonAction)
    ensures a == RunUnregister <==> view.registered
    ensures a.Navigate? ==> a.to == ParRegister(event)
  {
    if view.registered then RunUnregister else Navigate(ParRegister(event))
  }

  /** The `onRegistered` callback the form calls after a successful insert. */
  function OnRegistered(view: DetailView): (v: DetailView)
    ensures v.registered && v.participant == view.participant
  {
    view.(registered := true)
  }

  /** Deleting every registration row of the given event and participant. */
  function DeleteWherePair(regs: seq<Registration>, eventId: Id, pid: Id): (r: seq<Registration>)
    ensures forall i :: 0 <= i < |r| ==> !Matches(r[i], eventId, pid)
    ensures forall x :: multiset(r)[x] == if Matches(x, eventId, pid) then 0 else multiset(regs)[x]
  {
    if |regs| == 0 then []
    else
      assert regs == [regs[0]] + regs[1..];
      var rest := DeleteWherePair(regs[1..], eventId, pid);
      if Matches(regs[0], eventId, pid) then rest else [regs[0]] + rest
  }

  datatype UnregisterResult = UnregisterResult(view: DetailView, store: Store)

  /**
   * `handleUnregister`: delete every row of the pair and clear the flag;
   * on an error keep both. With no participant id the filter
   * `participant_id = null` matches no row.
   */
  function Unregister(view: DetailView, store: Store, event: Event, write: WriteReply): (r: UnregisterResult)
    ensures r.store.profiles == store.profiles && r.store.events == store.events
    ensures write == Refused ==> r == UnregisterResult(view, store)
    ensures write == Accepted ==> !r.view.registered && r.view.participant == view.participant
    ensures write == Accepted && view.participant.None? ==> r.store == store
    ensures write == Accepted && view.participant.Some? ==>
      && PairCount(r.store.registrations, event.id, view.participant.value) == 0
      && forall x :: multiset(r.store.registrations)[x] ==
           if Matches(x, event.id, view.participant.value) then 0 else multiset(store.registrations)[x]
  {
    if write == Refused then UnregisterResult(view, store)
    else
      match view.participant
      case None => UnregisterResult(view.(registered := false), store)
      case Some(p) =>
        var kept := DeleteWherePair(store.registrations, event.id, p);
        PairCountNone(kept, event.id, p);
        UnregisterResult(view.(registered := false), store.(registrations := kept))
  }

  /** Unregistering a pair that has no row changes no row and is not an error. */
  lemma UnregisterWithoutRowIsNoOp(view: DetailView, store: Store, event: Event, pid: Id)
    requires view.participant == Some(pid)
    requires forall i :: 0 <= i < |store.registrations| ==> !Matches(store.registrations[i], event.id, pid)
    ensures var r := Unregister(view, store, event, Accepted);
      multiset(r.store.registrations) == multiset(store.registrations) && !r.view.registered
  {
    var r := Unregister(view, store, event, Accepted);
    forall x ensures multiset(r.store.registrations)[x] == multiset(store.registrations)[x] {
      if Matches(x, event.id, pid) {
        assert x !in store.registrations;
      }
    }
  }

  /**
   * Register, come back, re-enter: the button says Unregister. Unregister
   * and re-enter: it says Register again.
   */
  lemma RegisterUnregisterRoundTrip(store: Store, form: RegisterForm, event: Event, pid: Id, freshId: Id)
    requires RegisterFormFilled(form) && !HasRegistrationId(store.registrations, freshId)
    requires PairCount(store.registrations, event.id, pid) == 0
    ensures var r := Register(store, form, event, Some(pid), true, Accepted, freshId);
      var entered := CheckRegistration(r.store.registrations, event, Some(pid), QueryOk);
      var u := Unregister(entered, r.store, event, Accepted);
      && entered.registered
      && OnRegistered(DetailView(Some(pid), false)).registered
      && !CheckRegistration(u.store.registrations, event, Some(pid), QueryOk).registered
  {
    RegisterAddsOneRowForPair(store, form, event, pid, true, freshId);
  }

  /**
   * Nothing stops a second submit: with the backend accepting both, the pair
   * has two rows, and the detail screen then reads the pair as unregistered,
   * because `.maybeSingle()` returns no row when several match.
   */
  lemma SecondSubmitDuplicatesPair(store: Store, form: RegisterForm, event: Event, pid: Id, id1: Id, id2: Id)
    requires RegisterFormFilled(form) && id1 != id2
    requires !HasRegistrationId(store.registrations, id1) && !HasRegistrationId(store.registrations, id2)
    requires PairCount(store.registrations, event.id, pid) == 0
    ensures var r1 := Register(store, form, event, Some(pid), true, Accepted, id1);
      var r2 := Register(r1.store, form, event, Some(pid), true, Accepted, id2);
      && r2.outcome.Moved?
      && PairCount(r2.store.registrations, event.id, pid) == 2
      && !CheckRegistration(r2.store.registrations, event, Some(pid), QueryOk).registered
  {
    var r1 := Register(store, form, event, Some(pid), true, Accepted, id1);
    RegisterAddsOneRowForPair(store, form, event, pid, true, id1);
    assert !HasRegistrationId(r1.store.registrations, id2);
    RegisterAddsOneRowForPair(r1.store, form, event, pid, true, id2);
  }
}

=== FILE: schema.dfy ===
/**
 * The three backend tables the screens read and write, held in memory, and
 * the screens the app can navigate to.
 */
module Schema {
  import opened Basics

  /** The two event categories offered by the organizer and participant home screens. */
  datatype Category = Technical | Cultural

  /** A row of `profiles`, keyed by the auth user id. `year` is `parseInt` of the typed year. */
  datatype Profile = Profile(fullName: string, year: Option<int>, role: Option<string>)

  /** A row of `events`. `id` and `createdAt` are set by the backend on insert. */
  datatype Event = Event(
    id: Id,
    organizerId: Id,
    category: Category,
    name: string,
    club: string,
    eventDate: string,
    dayName: string,
    venue: string,
    description: string,
    posterUrl: Option<string>,
    createdAt: int)

  /** A row of `registrations`; the participant id is `null` when no profile was loaded. */
  datatype Registration = Registration(
    id: Id,
    eventId: Id,
    participantId: Option<Id>,
    year: Option<int>,
    branch: string,
    expectations: string)

  /** The backend's tables. */
  datatype Store = Store(
    profiles: map<Id, Profile>,
    events: seq<Event>,
    registrations: seq<Registration>)

  /** The navigator's destinations, with the route parameters the screens pass. */
  datatype Screen =
    | Auth
    | RoleGate
    | OrgHome
    | ParHome
    | OrgEventList(category: Category)
    | OrgCreateEvent(category: Category, existing: Option<Event>)
    | ParRegister(event: Event)
    | Back

  /**
   * How a screen handler ends: refused by its own form check before any
   * backend call, stopped by a backend error (an alert), finished by moving
   * to another screen, or finished in place.
   */
  datatype Outcome = Rejected | Failed | Moved(to: Screen) | Done

  /** Whether a read query came back or raised an error. */
  datatype QueryReply = QueryOk | QueryFailed

  const Organizer: string := "organizer"
  const Participant: string := "participant"

  predicate HasEventId(events: seq<Event>, id: Id)
  {
    exists i :: 0 <= i < |events| && events[i].id == id
  }

  predicate HasRegistrationId(regs: seq<Registration>, id: Id)
  {
    exists i :: 0 <= i < |regs| && regs[i].id == id
  }
}

=== FILE: session.dfy ===
/**
 * Where the app goes after login, sign-up, session restore, role choice and
 * logout. The auth service and the profile lookup are replaced by their
 * replies, passed in.
 */
module SessionRouting {
  import opened Basics
  import opened Schema
  import opened JsParseInt

  /** The `role` column of a profile row. */
  datatype RoleRow = RoleRow(role: Option<string>)

  /**
   * The single-row lookup of a user's role in the profiles table: the row,
   * if any, and the error code, if any. A missing row is reported as the
   * error code `PGRST116`.
   */
  datatype ProfileReply = ProfileReply(data: Option<RoleRow>, errorCode: Option<string>)

  const NoRowsCode: string := "PGRST116"

  /**
   * What the profile lookup returns when the backend is healthy: the
   * user's role when they have a profile, the "no rows" code otherwise.
   */
  function LookupRole(profiles: map<Id, Profile>, id: Id): (r: ProfileReply)
    ensures !HardError(r)
    ensures r.data.Some? <==> id in profiles
    ensures r.errorCode.Some? <==> id !in profiles
    ensures id in profiles ==> r.data.value.role == profiles[id].role
  {
    if id in profiles then ProfileReply(Some(RoleRow(profiles[id].role)), None)
    else ProfileReply(None, Some(NoRowsCode))
  }

  /** The login screen's form; `isLogin` is the login/sign-up toggle. */
  datatype AuthForm = AuthForm(email: string, password: string, isLogin: bool)

  /** `signInWithPassword`: an error, or a user whose id may be missing. */
  datatype SignInReply = SignInError | SignedIn(userId: Option<Id>)

  datatype SignUpReply = SignUpError | SignedUp

  /** The lookup failed for a reason other than "no such row". */
  predicate HardError(lookup: ProfileReply)
  {
    lookup.errorCode.Some? && lookup.errorCode.value != NoRowsCode
  }

  /** The profile row exists and its role is neither of the two the app knows. */
  predicate UnknownRole(lookup: ProfileReply)
  {
    lookup.data.Some? && lookup.data.value.role != Some(Organizer)
    && lookup.data.value.role != Some(Participant)
  }

  /** Routing after a successful sign-in, from the profile lookup. */
  function LoginRoute(lookup: ProfileReply): (o: Outcome)
    ensures o == Failed <==> HardError(lookup)
    ensures !HardError(lookup) ==> o.Moved? && o.to in {RoleGate, OrgHome, ParHome}
    ensures o == Moved(RoleGate) <==> !HardError(lookup) && lookup.data.None?
    ensures o == Moved(OrgHome) <==>
      !HardError(lookup) && lookup.data.Some? && lookup.data.value.role == Some(Organizer)
  {
    if HardError(lookup) then Failed
    else if lookup.data.None? then Moved(RoleGate)
    else if lookup.data.value.role == Some(Organizer) then Moved(OrgHome)
    else Moved(ParHome)
  }

  /** `handleAuth`: the login screen's submit button. */
  function HandleAuth(form: AuthForm, signIn: SignInReply, signUp: SignUpReply, lookup: ProfileReply): (o: Outcome)
    ensures o == Rejected <==> form.email == "" || form.password == ""
    ensures o != Rejected && !form.isLogin ==> (o == Moved(RoleGate) <==> signUp.SignedUp?)
    ensures o != Rejected && !form.isLogin ==> o in {Failed, Moved(RoleGate)}
    ensures o != Rejected && form.isLogin && (signIn.SignInError? || !Truthy(signIn.userId)) ==> o == Failed
    ensures o != Rejected && form.isLogin && signIn.SignedIn? && Truthy(signIn.userId) ==> o == LoginRoute(lookup)
  {
    if form.email == "" || form.password == "" then Rejected
    else if form.isLogin then
      if signIn.SignInError? || !Truthy(signIn.userId) then Failed
      else LoginRoute(lookup)
    else if signUp.SignUpError? then Failed
    else Moved(RoleGate)
  }

  /** An empty email or password is refused before the auth service or the profiles table is asked. */
  lemma AuthValidationIsLocal(form: AuthForm, signIn: SignInReply, signUp: SignUpReply, lookup: ProfileReply,
                              signIn': SignInReply, signUp': SignUpReply, lookup': ProfileReply)
    requires form.email == "" || form.password == ""
    ensures HandleAuth(form, signIn, signUp, lookup) == HandleAuth(form, signIn', signUp', lookup') == Rejected
  {
  }

  /**
   * `checkSession` on the login screen: with a stored session, route by the
   * role the lookup returns, ignoring its error; without one, stay.
   */
  function RestoreRoute(session: Option<Id>, lookup: ProfileReply): (nav: Option<Screen>)
    ensures session.None? <==> nav.None?
    ensures nav == Some(OrgHome) <==>
      session.Some? && lookup.data.Some? && lookup.data.value.role == Some(Organizer)
    ensures nav == Some(ParHome) <==>
      session.Some? && lookup.data.Some? && lookup.data.value.role == Some(Participant)
    ensures nav.Some? ==> nav.value in {OrgHome, ParHome, RoleGate}
  {
    if session.None? then None
    else if lookup.data.Some? && lookup.data.value.role == Some(Organizer) then Some(OrgHome)
    else if lookup.data.Some? && lookup.data.value.role == Some(Participant) then Some(ParHome)
    else Some(RoleGate)
  }

  /**
   * Login and session restore agree on every healthy lookup except a
   * profile whose role is unknown (including `null`): login sends it to
   * the participant home, restore back to the role choice.
   */
  lemma LoginAndRestoreDisagreeOnlyOnUnknownRole(user: Id, lookup: ProfileReply)
    requires !HardError(lookup)
    ensures UnknownRole(lookup) ==>
      LoginRoute(lookup) == Moved(ParHome) && RestoreRoute(Some(user), lookup) == Some(RoleGate)
    ensures !UnknownRole(lookup) ==> LoginRoute(lookup) == Moved(RestoreRoute(Some(user), lookup).value)
  {
  }

  /** The role form: full name, the typed year and the chosen role (`""` until a button is pressed). */
  datatype ProfileForm = ProfileForm(fullName: string, year: string, role: string)

  /** `getSession()`: whether it errored, and the session's user id, if there is a session. */
  datatype SessionReply = SessionReply(failed: bool, userId: Option<Id>)

  datatype SaveResult = SaveResult(outcome: Outcome, profiles: map<Id, Profile>)

  predicate ProfileFormFilled(form: ProfileForm)
  {
    form.fullName != "" && form.year != "" && form.role != ""
  }

  /** The row `handleSaveProfile` upserts. */
  function ProfileOf(form: ProfileForm): Profile
  {
    Profile(form.fullName, ParseInt(form.year), Some(form.role))
  }

  /** `handleSaveProfile`: validate, find the session user, upsert their profile, route by role. */
  function SaveProfile(profiles: map<Id, Profile>, form: ProfileForm, session: SessionReply, write: WriteReply): (r: SaveResult)
    ensures !ProfileFormFilled(form) ==> r == SaveResult(Rejected, profiles)
    ensures r.outcome == Rejected <==> !ProfileFormFilled(form)
    ensures ProfileFormFilled(form) && !r.outcome.Moved? ==> r.outcome == Failed
    ensures ProfileFormFilled(form) && (session.failed || session.userId.None?) ==> r == SaveResult(Failed, profiles)
    ensures write == Refused && r.outcome != Rejected ==> r == SaveResult(Failed, profiles)
    ensures r.profiles != profiles ==> r.outcome.Moved?
    ensures r.outcome.Moved? <==>
      ProfileFormFilled(form) && !session.failed && session.userId.Some? && write == Accepted
    ensures r.outcome.Moved? ==>
      var user := session.userId.value;
      && r.profiles.Keys == profiles.Keys + {user}
      && r.profiles[user] == ProfileOf(form)
      && (forall id :: id in profiles && id != user ==> r.profiles[id] == profiles[id])
      && r.outcome.to == (if form.role == Organizer then OrgHome else ParHome)
  {
    if !ProfileFormFilled(form) then SaveResult(Rejected, profiles)
    else if session.failed || session.userId.None? then SaveResult(Failed, profiles)
    else if write == Refused then SaveResult(Failed, profiles)
    else
      assert write == Accepted;
      var profiles' := profiles[session.userId.value := ProfileOf(form)];
      SaveResult(Moved(if form.role == Organizer then OrgHome else ParHome), profiles')
  }

  /**
   * A saved role is durable: logging in again, or restoring the session,
   * afterwards lands on the home screen the role form chose, as long as the
   * role is one of the two the buttons offer.
   */
  lemma SavedRoleRoutesAlike(profiles: map<Id, Profile>, form: ProfileForm, user: Id)
    requires ProfileFormFilled(form)
    requires form.role == Organizer || form.role == Participant
    ensures var r := SaveProfile(profiles, form, SessionReply(false, Some(user)), Accepted);
      && r.outcome.Moved?
      && LoginRoute(LookupRole(r.profiles, user)) == r.outcome
      && RestoreRoute(Some(user), LookupRole(r.profiles, user)) == Some(r.outcome.to)
  {
  }

  /** The year is not range-checked: "9" is saved as 9, a non-number as `null`. */
  lemma YearIsNotRangeChecked(profiles: map<Id, Profile>, name: string, role: string, user: Id)
    requires name != "" && role != ""
    ensures SaveProfile(profiles, ProfileForm(name, "9", role), SessionReply(false, Some(user)), Accepted)
              .profiles[user].year == Some(9)
    ensures SaveProfile(profiles, ProfileForm(name, "abc", role), SessionReply(false, Some(user)), Accepted)
              .profiles[user].year == None
  {
    var session := SessionReply(false, Some(user));
    var nine := ProfileForm(name, "9", role);
    var letters := ProfileForm(name, "abc", role);
    assert ProfileFormFilled(nine) && ProfileFormFilled(letters);
    assert SaveProfile(profiles, nine, session, Accepted).profiles[user] == ProfileOf(nine);
    assert SaveProfile(profiles, letters, session, Accepted).profiles[user] == ProfileOf(letters);
    ParseNine();
    ParseLetters();
  }

  lemma ParseNine()
    ensures ParseInt("9") == Some(9)
  {
    var ds := "9";
    assert "" + ("" + ds + "") == ds;
    assert Value(ds, 10) == 9 by {
      assert ds[..0] == "";
    }
    ParseIntReadsLeadingDigits("", "", ds, "");
  }

  lemma ParseLetters()
    ensures ParseInt("abc") == None
  {
    var s := "abc";
    assert forall i :: 0 <= i < |s| ==> !IsDecimalDigit(s[i]);
    ParseIntNeedsADigit(s);
  }

  /** The app's session and navigation stack. */
  datatype App = App(session: Option<Id>, stack: seq<Screen>)

  /**
   * `handleLogout`: sign out, then reset the stack to the login screen
   * whatever the sign-out replied; the stored session is cleared only when
   * the sign-out went through.
   */
  function Logout(app: App, signOut: WriteReply): (next: App)
    ensures next.stack == [Auth]
    ensures signOut == Accepted ==> next.session.None?
    ensures signOut == Refused ==> next.session == app.session
  {
    App(if signOut == Accepted then None else app.session, [Auth])
  }

  /**
   * After a logout the login screen's restore check stays put; if the
   * sign-out failed and a session survived, it routes straight back in.
   */
  lemma LogoutLandsOnLogin(app: App, signOut: WriteReply, lookup: ProfileReply)
    ensures var next := Logout(app, signOut);
      RestoreRoute(next.session, lookup).None? <==> (signOut == Accepted || app.session.None?)
  {
  }
}

=== FILE: tally.dfy ===
/**
 * The organizer's registrations screen: the fetched registration list and
 * the per-year pie chart computed from it. The chart has one slice per
 * study year 1 to 4, in that order, each with a fixed label and colour,
 * and leaves out years nobody registered from.
 */
module YearTally {
  import opened Basics
  import opened Schema
  import opened JsParseInt
  import opened Registrations

  /** One pie slice: its label, its count and its colour. */
  datatype YearStat = YearStat(name: string, count: nat, color: string)

  /** The screen's state: the list shown, the chart data and the spinner. */
  datatype RegistrationsView = RegistrationsView(
    list: seq<Registration>,
    stats: seq<YearStat>,
    loading: bool)

  /** What the registrations query returns: rows (possibly `null`) or an error. */
  datatype FetchReply = Fetched(data: Option<seq<Registration>>) | FetchFailed

  function Label(k: int): string
    requires 1 <= k <= 4
  {
    if k == 1 then "1st Year" else if k == 2 then "2nd Year"
    else if k == 3 then "3rd Year" else "4th Year"
  }

  function Colour(k: int): string
    requires 1 <= k <= 4
  {
    if k == 1 then "#FF9999" else if k == 2 then "#FF7043"
    else if k == 3 then "#FFB74D" else "#FFCC80"
  }

  /** The year a slice label names, or 0 for any other text. */
  function LabelYear(name: string): (k: int)
    ensures 0 <= k <= 4
    ensures k != 0 ==> Label(k) == name
  {
    if name == "1st Year" then 1 else if name == "2nd Year" then 2
    else if name == "3rd Year" then 3 else if name == "4th Year" then 4 else 0
  }

  /** The slice for year `k` when `n` registrations fall in it. */
  function Bucket(k: int, n: nat): YearStat
    requires 1 <= k <= 4
  {
    YearStat(Label(k), n, Colour(k))
  }

  predicate InYearRange(year: Option<int>)
  {
    year.Some? && 1 <= year.value <= 4
  }

  /** The stored year of every registration, in order. */
  function StoredYears(regs: seq<Registration>): (ys: seq<Option<int>>)
    ensures |ys| == |regs|
    ensures forall i :: 0 <= i < |regs| ==> ys[i] == regs[i].year
  {
    if |regs| == 0 then [] else StoredYears(regs[..|regs| - 1]) + [regs[|regs| - 1].year]
  }

  /** Number of registrations whose stored year is exactly `k`. */
  function YearCount(regs: seq<Registration>, k: int): nat
  {
    multiset(StoredYears(regs))[Some(k)]
  }

  /** The year the chart reads: the stored integer or `null`, parsed again through its string form. */
  function ParsedYear(year: Option<int>): Option<int>
  {
    match year
    case None => ParseInt("null")
    case Some(n) => ParseInt(IntToString(n))
  }

  lemma ParsedYearIsStoredYear(year: Option<int>)
    ensures ParsedYear(year) == year
  {
    match year
    case None =>
      var s := "null";
      assert forall i :: 0 <= i < |s| ==> !IsDecimalDigit(s[i]);
      ParseIntNeedsADigit(s);
    case Some(n) =>
      ParseIntOfIntToString(n);
  }

  function Sum4(c: seq<nat>): nat
    requires |c| == 4
  {
    c[0] + c[1] + c[2] + c[3]
  }

  /** One step of the count: a year in 1..4 adds one to its own cell; any other year is skipped. */
  function Bump(c: seq<nat>, yr: Option<int>): (b: seq<nat>)
    requires |c| == 4
    ensures |b| == 4
    ensures forall j :: 0 <= j < 4 ==> b[j] == c[j] + (if yr == Some(j + 1) then 1 else 0)
    ensures Sum4(b) == Sum4(c) + (if InYearRange(yr) then 1 else 0)
  {
    if yr.Some? && 1 <= yr.value <= 4 then c[yr.value - 1 := c[yr.value - 1] + 1] else c
  }

  /** The four per-year counts after every registration has been read, in order. */
  function Counts(regs: seq<Registration>): (c: seq<nat>)
    ensures |c| == 4
    ensures forall k :: 1 <= k <= 4 ==> c[k - 1] == YearCount(regs, k)
  {
    if |regs| == 0 then [0, 0, 0, 0]
    else
      var last := regs[|regs| - 1].year;
      ParsedYearIsStoredYear(last);
      YearCountSnoc(regs);
      Bump(Counts(regs[..|regs| - 1]), ParsedYear(last))
  }

  lemma YearCountSnoc(regs: seq<Registration>)
    requires |regs| > 0
    ensures forall k ::
      YearCount(regs, k) == YearCount(regs[..|regs| - 1], k) + (if regs[|regs| - 1].year == Some(k) then 1 else 0)
  {
    assert StoredYears(regs) == StoredYears(regs[..|regs| - 1]) + [regs[|regs| - 1].year];
  }

  lemma LabelYearOfLabel(k: int)
    requires 1 <= k <= 4
    ensures LabelYear(Label(k)) == k
  {
  }

  /** The four slices in fixed order, before the zero filter. */
  function AllBuckets(c: seq<nat>): seq<YearStat>
    requires |c| == 4
  {
    [Bucket(1, c[0]), Bucket(2, c[1]), Bucket(3, c[2]), Bucket(4, c[3])]
  }

  predicate IncreasingYears(bs: seq<YearStat>)
  {
    forall i, j :: 0 <= i < j < |bs| ==> LabelYear(bs[i].name) < LabelYear(bs[j].name)
  }

  /** The slices with a positive count, in their order. */
  function KeepNonZero(bs: seq<YearStat>): (r: seq<YearStat>)
    ensures forall x :: x in r <==> x in bs && x.count > 0
    ensures IncreasingYears(bs) ==> IncreasingYears(r)
  {
    if |bs| == 0 then []
    else if bs[0].count > 0 then [bs[0]] + KeepNonZero(bs[1..])
    else KeepNonZero(bs[1..])
  }

  /** The filter keeps each positive slice exactly as often as it occurs, and drops the rest. */
  lemma {:induction false} KeepNonZeroMultiplicity(bs: seq<YearStat>)
    ensures forall x :: multiset(KeepNonZero(bs))[x] == if x.count > 0 then multiset(bs)[x] else 0
  {
    if |bs| > 0 {
      KeepNonZeroMultiplicity(bs[1..]);
      assert bs == [bs[0]] + bs[1..];
    }
  }

  lemma AllBucketsFacts(c: seq<nat>)
    requires |c| == 4
    ensures |AllBuckets(c)| == 4
    ensures forall i :: 0 <= i < 4 ==> AllBuckets(c)[i] == Bucket(i + 1, c[i])
    ensures forall i :: 0 <= i < 4 ==> LabelYear(AllBuckets(c)[i].name) == i + 1
    ensures IncreasingYears(AllBuckets(c))
  {
    LabelYearOfLabel(1);
    LabelYearOfLabel(2);
    LabelYearOfLabel(3);
    LabelYearOfLabel(4);
  }

  /** The zero filter over the four fixed slices, for any counts `c`. */
  lemma ChartShape(c: seq<nat>)
    requires |c| == 4
    ensures var r := KeepNonZero(AllBuckets(c));
      && (forall i :: 0 <= i < |r| ==> r[i].count > 0)
      && (forall i :: 0 <= i < |r| ==>
            1 <= LabelYear(r[i].name) <= 4 && r[i] == Bucket(LabelYear(r[i].name), c[LabelYear(r[i].name) - 1]))
      && IncreasingYears(r)
      && (forall j :: 0 <= j < 4 ==> (c[j] > 0 <==> Bucket(j + 1, c[j]) in r))
  {
    var all := AllBuckets(c);
    var r := KeepNonZero(all);
    AllBucketsFacts(c);
    forall i | 0 <= i < |r|
      ensures 1 <= LabelYear(r[i].name) <= 4 && r[i] == Bucket(LabelYear(r[i].name), c[LabelYear(r[i].name) - 1])
    {
      assert r[i] in all;
      var j :| 0 <= j < 4 && all[j] == r[i];
      assert LabelYear(r[i].name) == j + 1;
    }
    forall j | 0 <= j < 4
      ensures c[j] > 0 <==> Bucket(j + 1, c[j]) in r
    {
      assert Bucket(j + 1, c[j]) == all[j];
    }
  }

  /** The chart data computed from a registration list. */
  function Tally(regs: seq<Registration>): (stats: seq<YearStat>)
    ensures forall i :: 0 <= i < |stats| ==> stats[i].count > 0
    ensures forall i :: 0 <= i < |stats| ==>
      1 <= LabelYear(stats[i].name) <= 4
      && stats[i] == Bucket(LabelYear(stats[i].name), YearCount(regs, LabelYear(stats[i].name)))
    ensures IncreasingYears(stats)
    ensures forall k :: 1 <= k <= 4 ==>
      (YearCount(regs, k) > 0 <==> Bucket(k, YearCount(regs, k)) in stats)
  {
    var c := Counts(regs);
    ChartShape(c);
    var stats := KeepNonZero(AllBuckets(c));
    assert forall k :: 1 <= k <= 4 ==> c[k - 1] == YearCount(regs, k);
    stats
  }

  /** Sum of the slice counts: the number of registrations the chart shows. */
  function Total(stats: seq<YearStat>): nat
  {
    if |stats| == 0 then 0 else stats[0].count + Total(stats[1..])
  }

  predicate AllInYearRange(regs: seq<Registration>)
  {
    forall i :: 0 <= i < |regs| ==> InYearRange(regs[i].year)
  }

  lemma {:induction false} TotalKeepNonZero(bs: seq<YearStat>)
    ensures Total(KeepNonZero(bs)) == Total(bs)
  {
    if |bs| > 0 {
      TotalKeepNonZero(bs[1..]);
      if bs[0].count > 0 {
        assert ([bs[0]] + KeepNonZero(bs[1..]))[1..] == KeepNonZero(bs[1..]);
      }
    }
  }

  lemma {:induction false} CountsTotal(regs: seq<Registration>)
    ensures Sum4(Counts(regs)) <= |regs|
    ensures Sum4(Counts(regs)) == |regs| <==> AllInYearRange(regs)
  {
    if |regs| > 0 {
      var prefix := regs[..|regs| - 1];
      var last := regs[|regs| - 1].year;
      CountsTotal(prefix);
      ParsedYearIsStoredYear(last);
      assert Counts(regs) == Bump(Counts(prefix), ParsedYear(last));
      assert Sum4(Counts(regs)) == Sum4(Counts(prefix)) + (if InYearRange(last) then 1 else 0);
      assert AllInYearRange(regs) <==> AllInYearRange(prefix) && InYearRange(last) by {
        if AllInYearRange(prefix) && InYearRange(last) {
          forall i | 0 <= i < |regs| ensures InYearRange(regs[i].year) {
            if i < |regs| - 1 { assert regs[i] == prefix[i]; }
          }
        }
      }
    }
  }

  /**
   * The chart accounts for at most every registration, and for all of them
   * exactly when every stored year is between 1 and 4.
   */
  lemma TallyTotal(regs: seq<Registration>)
    ensures Total(Tally(regs)) <= |regs|
    ensures Total(Tally(regs)) == |regs| <==> AllInYearRange(regs)
  {
    var c := Counts(regs);
    TotalKeepNonZero(AllBuckets(c));
    CountsTotal(regs);
    TotalAllBuckets(c);
    assert Sum4(c) == c[0] + c[1] + c[2] + c[3];
    assert Tally(regs) == KeepNonZero(AllBuckets(c));
  }

  lemma TotalAllBuckets(c: seq<nat>)
    requires |c| == 4
    ensures Total(AllBuckets(c)) == c[0] + c[1] + c[2] + c[3]
  {
    var all := AllBuckets(c);
    assert all[1..][1..][1..][1..] == [];
    assert Total(all[1..][1..][1..]) == c[3];
    assert Total(all[1..][1..]) == c[2] + c[3];
    assert Total(all[1..]) == c[1] + c[2] + c[3];
  }

  /** A registration whose year is missing or outside 1..4 changes no slice. */
  lemma StrayYearIgnored(regs: seq<Registration>, r: Registration)
    requires !InYearRange(r.year)
    ensures Tally(regs + [r]) == Tally(regs)
  {
    assert (regs + [r])[..|regs|] == regs;
    ParsedYearIsStoredYear(r.year);
  }

  lemma TallyOfNothing()
    ensures Tally([]) == []
  {
    assert Counts([]) == [0, 0, 0, 0];
  }

  /** The registrations of one event, in table order: what the statistics screen fetches for it. */
  function RowsOf(regs: seq<Registration>, eventId: Id): (rs: seq<Registration>)
    ensures forall r :: r in rs <==> r in regs && r.eventId == eventId
  {
    if |regs| == 0 then []
    else
      var last := regs[|regs| - 1];
      RowsOf(regs[..|regs| - 1], eventId) + (if last.eventId == eventId then [last] else [])
  }

  /**
   * The end of `fetchRegistrations`: on an error the list and chart are
   * kept; otherwise the rows (or `[]` for `null`) and their chart replace
   * them. The spinner stops either way.
   */
  function OnRegistrationsFetched(view: RegistrationsView, reply: FetchReply): (next: RegistrationsView)
    ensures !next.loading
    ensures reply.FetchFailed? ==> next.list == view.list && next.stats == view.stats
    ensures reply == Fetched(None) || reply == Fetched(Some([])) ==> next.list == [] && next.stats == []
    ensures reply.Fetched? && reply.data.Some? ==>
      next.list == reply.data.value
      && next.stats == Tally(next.list)
      && Total(next.stats) <= |next.list|
      && forall k :: 1 <= k <= 4 ==>
           (YearCount(next.list, k) > 0 <==> Bucket(k, YearCount(next.list, k)) in next.stats)
  {
    match reply
    case FetchFailed => view.(loading := false)
    case Fetched(data) =>
      var list := if data.Some? then data.value else [];
      TallyOfNothing();
      TallyTotal(list);
      RegistrationsView(list, Tally(list), false)
  }

  /**
   * A registration submitted with year text that reads as 1..4 adds one to
   * that year's slice; its slice is then on the chart.
   */
  lemma RegisteredYearIsTallied(store: Store, form: RegisterForm, event: Event, participant: Option<Id>, freshId: Id, k: int)
    requires RegisterFormFilled(form) && !HasRegistrationId(store.registrations, freshId)
    requires ParseInt(form.year) == Some(k) && 1 <= k <= 4
    ensures var after := Register(store, form, event, participant, true, Accepted, freshId).store.registrations;
      var mine := RowsOf(after, event.id);
      && YearCount(mine, k) == YearCount(RowsOf(store.registrations, event.id), k) + 1
      && Bucket(k, YearCount(mine, k)) in Tally(mine)
  {
    var after := Register(store, form, event, participant, true, Accepted, freshId).store.registrations;
    assert after[..|after| - 1] == store.registrations;
    var mine := RowsOf(after, event.id);
    assert mine == RowsOf(store.registrations, event.id) + [after[|after| - 1]];
    assert mine[..|mine| - 1] == RowsOf(store.registrations, event.id);
    YearCountSnoc(mine);
  }
}
